=== FILE: README.md ===
# Gossip dissemination simulator and convergence analysis, in Dafny

This project models the two computational kernels of a small epidemic-gossip
study. They are connected by the record `(time, run, aware_fraction)` that
the simulator writes and the analysis reads (`Records.Sample`).

1. **The round engine `simulate_one`** (swim_sim.py).
   - Node 0 starts aware.
   - Every round first records a start-of-round sample and stops once everyone is aware.
   - Otherwise every node aware at round start picks its targets: all other nodes when `fanout >= nodes - 1`, else `min(fanout, nodes - 1)` distinct nodes drawn with `random.choice`.
   - Every message then arrives when `random.random() < 1.0 - loss`.
   - All newly reached nodes become aware together at round end.
   - Randomness is an explicit oracle (`Gossip.Oracle`). `draws(r, i)` is the stream of raw `random.choice` results that sender `i` consumes in round `r`. `coin(r, i, t)` is the `random.random()` value for its message to `t`. The properties below hold for every oracle, under two premises where they are stated:
     - the lemmas about loss (`Gossip.LosslessDelivers`, `TrialProperties.TotalLossIsSilent`, `TrialProperties.TotalLossTrial`, `TrialProperties.BroadcastTrial`) need coins in [0, 1), as `random.random()` returns (`Gossip.UnitCoins`);
     - the exact target counts (`Targets.ChooseCard`, `Gossip.TargetCount`) need every draw stream to name enough distinct nodes for the sampling `while` loop to finish (`Targets.Sufficient`, `Gossip.SufficientDraws`).
   - Modules: `Targets` (target selection), `Gossip` (round, trial, `max_steps`), `TrialProperties` (monotonicity and the degenerate configurations).

2. **The analysis `analyze`** (analyze.py). It runs as a chain of pure functions:
   - **Axes:** sorted, de-duplicated time and run axes (`Axis`, `Analysis.TimeAxis`, `Analysis.RunAxis`).
   - **Scatter:** the time x run matrix with unset cells (`Scatter`). It is stored column-major, one `seq<Option<real>>` per run.
   - **Gap fill:** each column is forward-filled, then back-filled, then zero-filled (`GapFill`).
   - **Statistics:** the mean and variance curves, the deviation and its first maximum (`Curves`).
   - **Smoothing guard:** the window and degree clamp (`Smoothing`). The Savitzky-Golay filter is a function parameter, assumed only to accept what `Smoothing.FilterArgsOk` allows and to preserve length.
   - **Thresholds:** the first-crossing times and the 10%-to-90% spread (`Thresholds`).
   - **Whole pipeline:** `Analysis.Analyze`. It returns `None` for an empty record set, which stands for the early return.

Floats are modelled as `real`. Python's `int()` is modelled as truncation toward zero (`Gossip.Trunc`).

Three consequences of the code worth stating up front:

- `max_steps` is `int(max_time / interval)`, which truncates toward zero; for a negative quotient this gives zero or fewer rounds, so the trial records nothing (`Gossip.MaxSteps`).
- With two or more nodes, `fanout >= nodes - 1` and `loss = 0`, node 0 alone addresses every other node in the first round, so when `max_steps >= 2` a trial reaches full awareness after exactly one round (`TrialProperties.BroadcastTrial`). A single node is fully aware at round 0 and runs no round; when `max_steps >= 1` it records the one sample `(0, run_id, 1.0)` (`TrialProperties.SingleNodeTrial`).
- The threshold scan returns the first point at or above the threshold: on the curve [0.0, 0.2, 0.5, 0.8, 1.0] at times 0..4 that gives t50 = 2, t90 = 4 and t10_90 = 3 (`Thresholds.ThresholdExample`).

## Model

| member | source | states |
|---|---|---|
| `Targets.Possible` | swim_sim.py:46-47 | `possible` has `nodes - 1` distinct entries: exactly the nodes other than the sender |
| `Targets.Fill` | swim_sim.py:51-52 | the sampling loop only adds nodes from `possible`, keeps what it had, and never grows past `min(fanout, nodes - 1)` |
| `Targets.FillReachesWant` | swim_sim.py:51-52 | a draw stream naming enough distinct nodes drives the loop to exactly `min(fanout, nodes - 1)` targets |
| `Targets.Choose` | swim_sim.py:44-52 | a sender never targets itself; every target is a node; with `fanout >= nodes - 1` the targets are exactly all other nodes, otherwise at most `fanout` of them |
| `Targets.ChooseCard` | swim_sim.py:48-52 | once the loop can finish, the target set has exactly `min(fanout, nodes - 1)` elements (none for a negative fanout) |
| `Gossip.TargetCount` | swim_sim.py:44-52 | when every draw stream names enough distinct nodes, each sender targets exactly `min(fanout, nodes - 1)` nodes, none for a negative fanout |
| `Gossip.Delivered` | swim_sim.py:55-58 | the messages that arrive go to some of the sender's targets, never to the sender itself, and always to a node of the cluster |
| `Gossip.LosslessDelivers` | swim_sim.py:55-58 | with `loss <= 0` and coins in [0, 1) every targeted node receives the message |
| `Gossip.Incoming` | swim_sim.py:37-58 | every node marked in `new_awareness` is a node of the cluster, so the marking never indexes out of range |
| `Gossip.IncomingSpec` | swim_sim.py:37-58 | `new_awareness` after the sender loop holds exactly the nodes that some sender, aware at round start, delivered to |
| `Gossip.Round` | swim_sim.py:36-63 | awareness is never lost; a newly aware node was targeted and reached by a node aware at round start, other than itself; every delivery from such a node makes its target aware |
| `Gossip.Run` | swim_sim.py:29-34 | the loop from round `step` records at most one sample per remaining round |
| `Gossip.Trial` | swim_sim.py:15-65 | at most `max_steps` samples; sample k has time `k * interval` and the run id; the first is `(0, run_id, 1/nodes)` when `max_steps >= 1`; only the last can reach 1.0; a series shorter than `max_steps` ends at 1.0 |
| `Gossip.RunTimes` | swim_sim.py:29-32 | the samples from round `step` carry consecutive round times and the trial's run id |
| `Gossip.RunStops` | swim_sim.py:29-34 | the loop's first sample is its start fraction, it stops right after the first sample at full awareness, and stops early only there |
| `Gossip.TimeAt` | swim_sim.py:32 | the first round is stamped at time 0, and no round before it when the interval is not negative |
| `Gossip.TimeAtNext` | swim_sim.py:29-32 | consecutive rounds are stamped exactly one interval apart |
| `Gossip.Count` | swim_sim.py:31 | the number of aware nodes never exceeds the number of nodes |
| `Gossip.Fraction` | swim_sim.py:31 | `aware_fraction` is a proportion in [0, 1] |
| `Gossip.Initial` | swim_sim.py:23-25 | the start state has one entry per node, with node 0 aware and every other node unaware |
| `Gossip.FractionAtMostOne` | swim_sim.py:31 | `aware_fraction` is at most 1.0, and equals 1.0 exactly when every node is aware |
| `Gossip.CountInitial` | swim_sim.py:23-25 | exactly one node is aware before the first round |
| `Gossip.Trunc` | swim_sim.py:83 | `int()` rounds toward zero: the result is within one of its argument on the side of zero |
| `Gossip.MaxSteps` | swim_sim.py:83 | for a positive interval and non-negative time, `max_steps` is the number of whole intervals that fit: `m * interval <= max_time < (m + 1) * interval`; with opposite signs it is at most 0 |
| `Gossip.MaxStepsBounds` | swim_sim.py:83 | the truncated quotient brackets `max_time` between `m` and `m + 1` intervals |
| `Gossip.QuotientSign` | swim_sim.py:83 | a time and an interval of opposite signs give a negative quotient, so no rounds |
| `TrialProperties.CountMono` | swim_sim.py:60-63 | pointwise more awareness gives at least as large a count |
| `TrialProperties.CountAll` | swim_sim.py:31-33 | the count is the number of nodes exactly when every node is aware |
| `TrialProperties.FractionMono` | swim_sim.py:31 | a larger count gives at least as large a fraction |
| `TrialProperties.RoundGrows` | swim_sim.py:60-63 | a round never lowers the aware fraction |
| `TrialProperties.RunMonotone` | swim_sim.py:29-63 | every sample from round `step` lies between the start fraction and 1.0, and the series is non-decreasing |
| `TrialProperties.TrialMonotone` | swim_sim.py:23-63 | the `aware_fraction` column of a trial is non-decreasing and within [1/nodes, 1.0] |
| `TrialProperties.SilentRound` | swim_sim.py:60-63 | a round without deliveries leaves awareness unchanged |
| `TrialProperties.SilentRun` | swim_sim.py:29-34 | without deliveries a run short of full awareness lasts every remaining round at its start fraction |
| `TrialProperties.SilentTrial` | swim_sim.py:29-34 | a silent trial among at least two nodes has exactly `max(max_steps, 0)` samples `(k * interval, run_id, 1/nodes)` |
| `TrialProperties.NoFanoutIsSilent` | swim_sim.py:48-52 | with `fanout <= 0` no sender has a target, so nothing is delivered |
| `TrialProperties.NoFanoutTrial` | swim_sim.py:29-52 | `fanout = 0` among two or more nodes: the series is flat at 1/nodes for all `max_steps` rounds, without early stop |
| `TrialProperties.TotalLossIsSilent` | swim_sim.py:55-58 | `loss >= 1.0`: `random.random() < 1.0 - loss` never holds, so nothing is delivered |
| `TrialProperties.TotalLossTrial` | swim_sim.py:29-58 | `loss = 1.0` among two or more nodes: the series is flat at 1/nodes for all `max_steps` rounds, whatever the fanout |
| `TrialProperties.SingleNodeTrial` | swim_sim.py:23-34 | one node, when `max_steps >= 1`: the series is the single sample `(0, run_id, 1.0)` |
| `TrialProperties.BroadcastTrial` | swim_sim.py:44-63 | `fanout >= nodes - 1` and `loss = 0` among two or more nodes, when `max_steps >= 2`: the series is `(0, 1/nodes)` then `(interval, 1.0)` and stops |
| `Axis.Insert` | analyze.py:16-17 | inserting into a strictly increasing axis keeps it strictly increasing and adds exactly the new value |
| `Axis.Build` | analyze.py:16-17 | `sorted(unique(...))` is strictly increasing and holds exactly the values of the column |
| `Axis.SortedUnique` | analyze.py:16-17 | two strictly increasing sequences with the same values are equal, so the axis is the only sorted de-duplication |
| `Axis.IndexOf` | analyze.py:21-22 | `time_to_idx` / `run_to_idx` give a position holding the value |
| `Axis.IndexOfUnique` | analyze.py:21-22 | on a duplicate-free axis that position is the value's only one |
| `Analysis.TimeAxis` | analyze.py:16 | the time axis is strictly increasing and holds exactly the record times |
| `Analysis.RunAxis` | analyze.py:17 | the run axis is strictly increasing and holds exactly the record run ids |
| `Analysis.AxesHoldRecords` | analyze.py:16-28 | both axes are duplicate-free and every record's time and run lie on them, so every index lookup succeeds |
| `Scatter.Unset` | analyze.py:20 | the initial matrix has the axes' shape with every cell unset |
| `Scatter.Scatter` | analyze.py:24-28 | the scatter keeps the time x run shape |
| `Scatter.ScatterCell` | analyze.py:20-28 | a cell is set exactly when some record has its (time, run), and then holds the fraction of the last such record |
| `Scatter.LastHitExists` | analyze.py:24-28 | a cell with some record has a last record in record order |
| `Scatter.ScatterValue` | analyze.py:24-28 | a set cell holds the fraction of a record of its own time and run |
| `GapFill.FFill` | analyze.py:32 | `ffill` keeps the column length |
| `GapFill.BFill` | analyze.py:32 | `bfill` keeps the column length |
| `GapFill.Fill0` | analyze.py:32 | `fillna(0)` keeps every set cell's value and turns every gap into 0 |
| `GapFill.FillColumn` | analyze.py:32 | the filled column has a value in every cell, one per time |
| `GapFill.FFillCell` | analyze.py:32 | `ffill` copies the nearest set cell at or above, and leaves a cell unset only if nothing at or above it is set |
| `GapFill.BFillCell` | analyze.py:32 | `bfill` copies the nearest set cell at or below, and leaves a cell unset only if nothing at or below it is set |
| `GapFill.FillColumnCell` | analyze.py:32 | the fill keeps set cells; it carries the nearest earlier set value forward; before the first set cell it takes that cell's value; an all-unset column becomes 0 |
| `GapFill.LatestSet` | analyze.py:32 | a set cell at or above a position gives a nearest one |
| `GapFill.EarliestSet` | analyze.py:32 | a set cell at or below a position gives a nearest one |
| `GapFill.FillColumnValue` | analyze.py:32 | every filled value is 0 or a value of some set cell of the column |
| `GapFill.FillFromSet` | analyze.py:32 | in a column with a set cell every filled value comes from a set cell |
| `Analysis.Raw` | analyze.py:20-28 | the scattered matrix has one column per run and one cell per time |
| `Analysis.Matrix` | analyze.py:31-32 | the filled matrix has one column per run and one value per time |
| `Analysis.MatrixLastHit` | analyze.py:20-32 | a filled cell that has records holds the last such record's fraction |
| `Analysis.RunRecord` | analyze.py:17 | every run on the axis is the run of some record |
| `Analysis.ColumnHasRecord` | analyze.py:17-28 | every run column of the scattered matrix has a set cell |
| `Analysis.MatrixCell` | analyze.py:17-32 | every filled cell holds the fraction of some record of its run, so `fillna(0)` never takes effect |
| `Curves.Min` | analyze.py:34 | the smallest entry is an entry and bounds every entry from below |
| `Curves.Max` | analyze.py:34 | the largest entry is an entry and bounds every entry from above |
| `Curves.Mean` | analyze.py:34 | the mean taken once per entry gives the entries' sum, and it lies between the smallest and the largest entry |
| `Curves.SumWithin` | analyze.py:34 | entries within [lo, hi] sum to within [n * lo, n * hi] |
| `Curves.MeanWithin` | analyze.py:34 | the mean of entries within [lo, hi] is within [lo, hi] |
| `Curves.MeanCurve` | analyze.py:34 | `mean_curve` has one entry per time, the mean of its filled row, between the row's minimum and maximum |
| `Curves.Variance` | analyze.py:35 | the variance under `np.nanstd` is non-negative |
| `Curves.VarianceCurve` | analyze.py:35 | one variance per time, each that of its row and non-negative |
| `Curves.Deviation` | analyze.py:58 | at each time the deviation is one of the two signed differences of the curves and is non-negative, so it is exactly their distance; it is zero exactly where they agree |
| `Curves.ArgMax` | analyze.py:59 | `nanargmax` returns an index whose entry bounds all entries, and no earlier entry attains it |
| `Smoothing.ClampWindow` | analyze.py:44-52 | for any requested window and `n >= 5` points the guard gives an odd window in [5, n] and degree 3, which the filter accepts; the window is the largest odd one not above `min(window, n)`, or 5 when that is below 5 |
| `Smoothing.Smooth` | analyze.py:39-54 | the smoothed curve has the mean curve's length; below 5 points it is the mean curve itself, otherwise the filter applied with the clamped window and degree 3 |
| `Smoothing.DefaultWindow` | analyze.py:9-52 | the default window 11 is used as is on 11 or more points, and otherwise shrinks to the largest odd length that fits |
| `Thresholds.TimeToThreshold` | analyze.py:66-70 | returns `None` exactly when no point reaches the threshold, and otherwise the time of the first point at or above it |
| `Thresholds.FirstAtTime` | analyze.py:66-70 | the reported time is that of the unique first crossing |
| `Thresholds.ThresholdOrder` | analyze.py:72-75 | on a sorted time axis a lower threshold is reached whenever a higher one is, and no later |
| `Thresholds.Spread` | analyze.py:77 | `t_10_90` exists exactly when both times do, and adds to t10 to give t90 |
| `Thresholds.SpreadNonNegative` | analyze.py:72-77 | a reached t90 implies a reached t10 and a non-negative `t_10_90` |
| `Thresholds.ThresholdExample` | analyze.py:66-77 | on [0.0, 0.2, 0.5, 0.8, 1.0] at times 0..4, t50 = 2, t90 = 4 and t10_90 = 3 |
| `Analysis.Summary` | analyze.py:58-77 | the metrics read off the mean curve: the deviation curve is the pointwise distance `Curves.Deviation` between the mean and smoothed curves; its maximum and the values at its first index; the four thresholds' times, each the one `Thresholds.TimeToThreshold` gives on the mean curve, which come in threshold order `t10 <= t50 <= t90 <= t99` when reached; a non-negative `t_10_90` that exists exactly when t90 does |
| `Analysis.Analyze` | analyze.py:12-77 | no metrics exactly for an empty record set; otherwise axes as above, curves along the time axis, each mean and variance that of its filled row, the smoothed curve the guarded filter applied to the mean curve with the requested window (`Smoothing.Smooth`), and metrics as `Analysis.Summary` states |
| `Analysis.AnalyzeBounded` | analyze.py:34-60 | for records with fractions in [0, 1] the mean curve stays in [0, 1] and `percent_at_max_dev` in [0, 100] |

## Left out

- The `__main__` blocks, `argparse`, `os.makedirs`, and the CSV, `meta.txt`, plot and metrics-file output: file and console I/O.
- `run_serial_or_parallel` and its `multiprocessing.Pool` dispatch: process-level concurrency. A trial is modelled one at a time; the record set the analysis gets is any sequence of samples.
- `pd.read_csv`: file I/O. Its empty-frame early return is the `None` result of `Analysis.Analyze`.
- `savgol_filter`: least-squares numerics. It is a function parameter that accepts every argument triple `Smoothing.FilterArgsOk` allows and preserves length.
- The square root in `np.nanstd`: floating-point numerics. The model keeps the variance (`Curves.Variance`).
- The probability distribution of `random.choice` and `random.random`. Randomness is an arbitrary oracle, and no statistical claim is made.
- Float rounding. Times, fractions and thresholds are exact reals, so `aware_fraction`, `step * interval`, `max_time / interval` and the mean are computed without rounding error.
- client.py, client2.py and server.py: an HTTPS demo with no logic shared with the simulation.
- The `csv` entry of the metrics dictionary and the plot-only values (`std_curve` bands, the scatter marker): output formatting.
- Targets.Choose: below the broadcast case its contract bounds the target count only from above. The exact count `min(fanout, nodes - 1)` holds once the finite draw stream names enough distinct nodes (`Targets.Sufficient`, proved in `Targets.ChooseCard`), which is how termination of the `while` loop is modelled.
- Gossip.Trial: requires at least one node. With zero nodes `aware[0] = True` raises `IndexError`, an error path not modelled.
- Gossip.MaxSteps: requires a non-zero interval. A zero interval raises `ZeroDivisionError`, an error path not modelled.

=== FILE: analysis.dfy ===
/** `analyze` of analyze.py, from the record set to the metrics it writes:
    the two axes, the gap-filled time x run matrix, the mean and spread
    curves, the smoothed curve and its largest deviation from the mean, and
    the times at which the mean first reaches 10%, 50%, 90% and 99%. */
module Analysis {
  import opened Wrappers
  import opened Records
  import Axis
  import Scatter
  import GapFill
  import Curves
  import Smoothing
  import Thresholds

  /** What `analyze` computes for a non-empty record set. The curves are
      indexed by the time axis; `variance` is the square of the plotted
      standard deviation. */
  datatype Metrics = Metrics(
    times: seq<real>,
    runs: seq<int>,
    mean: seq<real>,
    variance: seq<real>,
    smooth: seq<real>,
    dev: seq<real>,
    tAtMaxDev: real,
    percentAtMaxDev: real,
    devMax: real,
    t10: Option<real>,
    t50: Option<real>,
    t90: Option<real>,
    t99: Option<real>,
    t10to90: Option<real>)

  /** `sorted(df['time'].unique())`. */
  function TimeAxis(recs: seq<Sample>): (times: seq<real>)
    ensures Axis.Increasing(Axis.RealLess, times)
    ensures forall t :: t in times <==> exists k :: 0 <= k < |recs| && recs[k].time == t
  {
    Axis.RealLessStrict();
    var vs := seq(|recs|, k requires 0 <= k < |recs| => recs[k].time);
    assert forall k :: 0 <= k < |recs| ==> vs[k] == recs[k].time;
    Axis.Build(Axis.RealLess, vs)
  }

  /** `sorted(df['run'].unique())`. */
  function RunAxis(recs: seq<Sample>): (runs: seq<int>)
    ensures Axis.Increasing(Axis.IntLess, runs)
    ensures forall r :: r in runs <==> exists k :: 0 <= k < |recs| && recs[k].run == r
  {
    Axis.IntLessStrict();
    var vs := seq(|recs|, k requires 0 <= k < |recs| => recs[k].run);
    assert forall k :: 0 <= k < |recs| ==> vs[k] == recs[k].run;
    Axis.Build(Axis.IntLess, vs)
  }

  /** Both axes are free of duplicates and every record lies on them. */
  lemma AxesHoldRecords(recs: seq<Sample>)
    ensures Axis.Distinct(TimeAxis(recs)) && Axis.Distinct(RunAxis(recs))
    ensures Scatter.OnAxes(recs, TimeAxis(recs), RunAxis(recs))
  {
    Axis.RealLessStrict();
    Axis.IntLessStrict();
    Axis.IncreasingDistinct(Axis.RealLess, TimeAxis(recs));
    Axis.IncreasingDistinct(Axis.IntLess, RunAxis(recs));
  }

  /** The record matrix before the gap fill. */
  function Raw(recs: seq<Sample>): (m: seq<Scatter.Column>)
    ensures Scatter.Shaped(m, |TimeAxis(recs)|, |RunAxis(recs)|)
  {
    AxesHoldRecords(recs);
    Scatter.Scatter(TimeAxis(recs), RunAxis(recs), recs)
  }

  /** `mat` after every run column has been gap-filled. */
  function Matrix(recs: seq<Sample>): (m: seq<seq<real>>)
    ensures |m| == |RunAxis(recs)| && Curves.Rows(m, |TimeAxis(recs)|)
  {
    var raw := Raw(recs);
    seq(|raw|, j requires 0 <= j < |raw| => GapFill.FillColumn(raw[j]))
  }

  /** A cell that has records holds the fraction of the last of them. */
  lemma MatrixLastHit(recs: seq<Sample>, i: nat, j: nat)
    requires i < |TimeAxis(recs)| && j < |RunAxis(recs)|
    ensures forall k :: Scatter.LastHit(recs, k, TimeAxis(recs)[i], RunAxis(recs)[j]) ==>
      Matrix(recs)[j][i] == recs[k].fraction
  {
    AxesHoldRecords(recs);
    var c := Raw(recs)[j];
    assert Matrix(recs)[j] == GapFill.FillColumn(c);
    Scatter.ScatterCell(TimeAxis(recs), RunAxis(recs), recs, i, j);
    GapFill.FillColumnCell(c, i);
  }

  /** Every run on the axis is the run of some record. */
  lemma RunRecord(recs: seq<Sample>, j: nat) returns (k: nat)
    requires j < |RunAxis(recs)|
    ensures k < |recs| && recs[k].run == RunAxis(recs)[j]
  {
    var runs := RunAxis(recs);
    assert runs[j] in runs;
    k :| 0 <= k < |recs| && recs[k].run == runs[j];
  }

  /** Every run column of the raw matrix has a set cell: the one of any
      record of that run. */
  lemma ColumnHasRecord(recs: seq<Sample>, j: nat) returns (i0: nat)
    requires j < |RunAxis(recs)|
    ensures i0 < |TimeAxis(recs)| && Raw(recs)[j][i0].Some?
  {
    var k0 := RunRecord(recs, j);
    var times, runs := TimeAxis(recs), RunAxis(recs);
    AxesHoldRecords(recs);
    i0 := Axis.IndexOf(times, recs[k0].time);
    assert Scatter.Hits(recs[k0], times[i0], runs[j]);
    Scatter.ScatterCell(times, runs, recs, i0, j);
  }

  /** Every cell of the filled matrix holds the fraction of some record of
      the cell's run: no run column is all unset, so the zero fill never
      applies. */
  lemma MatrixCell(recs: seq<Sample>, i: nat, j: nat)
    requires i < |TimeAxis(recs)| && j < |RunAxis(recs)|
    ensures exists k ::
      && 0 <= k < |recs|
      && recs[k].run == RunAxis(recs)[j]
      && Matrix(recs)[j][i] == recs[k].fraction
  {
    AxesHoldRecords(recs);
    var c := Raw(recs)[j];
    assert Matrix(recs)[j] == GapFill.FillColumn(c);
    var i0 := ColumnHasRecord(recs, j);
    GapFill.FillFromSet(c, i, i0);
    var s :| 0 <= s < |c| && c[s] == Some(Matrix(recs)[j][i]);
    Scatter.ScatterValue(TimeAxis(recs), RunAxis(recs), recs, s, j);
  }

  /** Every record's fraction is a fraction: what `simulate_one` writes. */
  ghost predicate Fractions(recs: seq<Sample>) {
    forall k :: 0 <= k < |recs| ==> 0.0 <= recs[k].fraction <= 1.0
  }

  /** `idx_max` is the first index of the largest deviation, and the three
      reported values are read at it. */
  ghost predicate AtMaxDeviation(m: Metrics, k: int) {
    && 0 <= k < |m.times| == |m.mean| == |m.dev|
    && m.tAtMaxDev == m.times[k]
    && m.percentAtMaxDev == m.mean[k] * 100.0
    && m.devMax == m.dev[k]
    && (forall j :: 0 <= j < |m.dev| ==> m.dev[j] <= m.devMax)
    && (forall j :: 0 <= j < k ==> m.dev[j] < m.devMax)
  }

  /** Threshold time `b` exists only if `a` does, and is no earlier. */
  ghost predicate NoLater(a: Option<real>, b: Option<real>) {
    b.Some? ==> a.Some? && a.value <= b.value
  }

  /** The metrics read off the mean curve: the deviation maximum at its
      first index, the first-crossing times of the four thresholds, which
      come in threshold order, and the 10%-to-90% spread. */
  function Summary(times: seq<real>, runs: seq<int>, mean: seq<real>, variance: seq<real>, smooth: seq<real>): (m: Metrics)
    requires 0 < |times| == |mean| == |variance| == |smooth|
    requires Axis.Increasing(Axis.RealLess, times)
    ensures m.times == times && m.runs == runs && m.mean == mean && m.variance == variance && m.smooth == smooth
    ensures m.dev == Curves.Deviation(mean, smooth)
    ensures exists k :: AtMaxDeviation(m, k)
    ensures
      && m.t10 == Thresholds.TimeToThreshold(mean, times, 0.10)
      && m.t50 == Thresholds.TimeToThreshold(mean, times, 0.50)
      && m.t90 == Thresholds.TimeToThreshold(mean, times, 0.90)
      && m.t99 == Thresholds.TimeToThreshold(mean, times, 0.99)
    ensures
      && NoLater(m.t10, m.t50)
      && NoLater(m.t50, m.t90)
      && NoLater(m.t90, m.t99)
    ensures (m.t10to90.Some? <==> m.t90.Some?)
    ensures m.t10to90.Some? ==> 0.0 <= m.t10to90.value == m.t90.value - m.t10.value
  {
    var dev := Curves.Deviation(mean, smooth);
    var k := Curves.ArgMax(dev);
    var t10 := Thresholds.TimeToThreshold(mean, times, 0.10);
    var t50 := Thresholds.TimeToThreshold(mean, times, 0.50);
    var t90 := Thresholds.TimeToThreshold(mean, times, 0.90);
    var t99 := Thresholds.TimeToThreshold(mean, times, 0.99);
    Thresholds.ThresholdOrder(mean, times, 0.10, 0.50);
    Thresholds.ThresholdOrder(mean, times, 0.50, 0.90);
    Thresholds.ThresholdOrder(mean, times, 0.90, 0.99);
    Thresholds.ThresholdOrder(mean, times, 0.10, 0.90);
    var m := Metrics(times, runs, mean, variance, smooth, dev,
      times[k], mean[k] * 100.0, dev[k], t10, t50, t90, t99, Thresholds.Spread(t10, t90));
    assert AtMaxDeviation(m, k);
    m
  }

  /** The whole of `analyze`: nothing for an empty record set; otherwise the
      summary of the curves of the gap-filled matrix, whose mean curve is the
      smoothing input. */
  function Analyze(recs: seq<Sample>, window: int, savgol: (seq<real>, int, int) --> seq<real>): (r: Option<Metrics>)
    requires Smoothing.FilterContract(savgol)
    ensures r.None? <==> |recs| == 0
    ensures r.Some? ==>
      && r.value.times == TimeAxis(recs)
      && r.value.runs == RunAxis(recs)
      && |r.value.times| > 0 && |r.value.runs| > 0
      && |r.value.mean| == |r.value.variance| == |r.value.smooth| == |r.value.times|
    ensures r.Some? ==> forall i :: 0 <= i < |r.value.times| ==>
      && r.value.mean[i] == Curves.Mean(Curves.Row(Matrix(recs), i))
      && r.value.variance[i] == Curves.Variance(Curves.Row(Matrix(recs), i))
    ensures r.Some? ==> r.value.smooth == Smoothing.Smooth(r.value.mean, window, savgol)
    ensures r.Some? ==> r.value == Summary(r.value.times, r.value.runs, r.value.mean, r.value.variance, r.value.smooth)
  {
    if |recs| == 0 then None
    else
      var times := TimeAxis(recs);
      var runs := RunAxis(recs);
      assert recs[0].time in times && recs[0].run in runs;
      var mat := Matrix(recs);
      var mean := Curves.MeanCurve(mat, |times|);
      var variance := Curves.VarianceCurve(mat, |times|);
      var smooth := Smoothing.Smooth(mean, window, savgol);
      Some(Summary(times, runs, mean, variance, smooth))
  }

  /** For records of fractions the mean curve stays in [0, 1], so the
      fraction at the largest deviation is a percentage in [0, 100]. */
  lemma AnalyzeBounded(recs: seq<Sample>, window: int, savgol: (seq<real>, int, int) --> seq<real>)
    requires Smoothing.FilterContract(savgol)
    requires |recs| > 0 && Fractions(recs)
    ensures forall i :: 0 <= i < |Analyze(recs, window, savgol).value.mean| ==>
      0.0 <= Analyze(recs, window, savgol).value.mean[i] <= 1.0
    ensures 0.0 <= Analyze(recs, window, savgol).value.percentAtMaxDev <= 100.0
  {
    var m := Analyze(recs, window, savgol).value;
    var mat := Matrix(recs);
    forall i | 0 <= i < |m.mean|
      ensures 0.0 <= m.mean[i] <= 1.0
    {
      var row := Curves.Row(mat, i);
      forall j | 0 <= j < |row|
        ensures 0.0 <= row[j] <= 1.0
      {
        MatrixCell(recs, i, j);
      }
      Curves.MeanWithin(row, 0.0, 1.0);
    }
    var k :| AtMaxDeviation(m, k);
  }
}

=== FILE: axis.dfy ===
/** The axes of the time x run matrix (analyze.py, `sorted(df[c].unique())`):
    the distinct values of a column in increasing order, and the position of a
    value on its axis (`time_to_idx`, `run_to_idx`). Generic over the element
    type, which comes with its strict order `lt`. */
module Axis {

  /** `lt` is a strict total order. */
  ghost predicate StrictOrder<T(!new)>(lt: (T, T) -> bool) {
    && (forall x :: !lt(x, x))
    && (forall x, y, z :: lt(x, y) && lt(y, z) ==> lt(x, z))
    && (forall x, y :: x != y ==> lt(x, y) || lt(y, x))
  }

  /** The orders of the two axes: times are reals, run ids integers. */
  predicate RealLess(a: real, b: real) { a < b }

  predicate IntLess(a: int, b: int) { a < b }

  lemma RealLessStrict()
    ensures StrictOrder(RealLess)
  {
  }

  lemma IntLessStrict()
    ensures StrictOrder(IntLess)
  {
  }

  /** Strictly increasing under `lt`, and so free of duplicates. */
  ghost predicate Increasing<T>(lt: (T, T) -> bool, xs: seq<T>) {
    forall i, j :: 0 <= i < j < |xs| ==> lt(xs[i], xs[j])
  }

  ghost predicate Distinct<T>(xs: seq<T>) {
    forall i, j :: 0 <= i < j < |xs| ==> xs[i] != xs[j]
  }

  /** Adds `x` to a strictly increasing sequence, keeping it strictly
      increasing and dropping `x` if it is already there. */
  function Insert<T(==,!new)>(lt: (T, T) -> bool, xs: seq<T>, x: T): (r: seq<T>)
    requires StrictOrder(lt) && Increasing(lt, xs)
    ensures Increasing(lt, r)
    ensures forall y :: y in r <==> y in xs || y == x
  {
    if |xs| == 0 then [x]
    else if xs[0] == x then xs
    else if lt(x, xs[0]) then [x] + xs
    else
      var rest := Insert(lt, xs[1..], x);
      assert forall y :: y in xs[1..] ==> lt(xs[0], y);
      [xs[0]] + rest
  }

  /** The sorted distinct values of `vs`: the axis built from one column of
      the record set. */
  function Build<T(==,!new)>(lt: (T, T) -> bool, vs: seq<T>): (r: seq<T>)
    requires StrictOrder(lt)
    ensures Increasing(lt, r)
    ensures forall y :: y in r <==> y in vs
  {
    if |vs| == 0 then []
    else
      var last := vs[|vs| - 1];
      assert forall y :: y in vs <==> y in vs[..|vs| - 1] || y == last;
      Insert(lt, Build(lt, vs[..|vs| - 1]), last)
  }

  /** A strictly increasing sequence has no repeated element. */
  lemma IncreasingDistinct<T(!new)>(lt: (T, T) -> bool, xs: seq<T>)
    requires StrictOrder(lt) && Increasing(lt, xs)
    ensures Distinct(xs)
  {
  }

  /** A strictly increasing sequence is determined by its elements: `Build`
      produces the only strictly increasing arrangement of the values it is
      given. */
  lemma {:induction false} SortedUnique<T(!new)>(lt: (T, T) -> bool, xs: seq<T>, ys: seq<T>)
    requires StrictOrder(lt)
    requires Increasing(lt, xs) && Increasing(lt, ys)
    requires forall y :: y in xs <==> y in ys
    ensures xs == ys
    decreases |xs|
  {
    assert |xs| > 0 ==> xs[0] in ys;
    assert |ys| > 0 ==> ys[0] in xs;
    if |xs| > 0 && |ys| > 0 {
      var x0, y0 := xs[0], ys[0];
      assert x0 in ys;
      assert y0 in xs;
      assert x0 == y0;
      forall y
        ensures y in xs[1..] <==> y in ys[1..]
      {
        if y in xs[1..] {
          assert y in ys && y != x0;
        }
        if y in ys[1..] {
          assert y in xs && y != y0;
        }
      }
      SortedUnique(lt, xs[1..], ys[1..]);
      assert xs == [x0] + xs[1..] && ys == [y0] + ys[1..];
    }
  }

  /** The position of `x` on an axis that holds it. */
  function IndexOf<T(==)>(xs: seq<T>, x: T): (k: nat)
    requires x in xs
    ensures k < |xs| && xs[k] == x
  {
    if xs[0] == x then 0 else 1 + IndexOf(xs[1..], x)
  }

  /** On an axis without duplicates the position is the only one. */
  lemma IndexOfUnique<T>(xs: seq<T>, k: nat)
    requires Distinct(xs) && k < |xs|
    ensures IndexOf(xs, xs[k]) == k
  {
  }
}

=== FILE: curves.dfy ===
/** The per-row statistics of the filled matrix in analyze.py (`np.nanmean`
    and the variance under `np.nanstd`, the filled matrix having no unset
    cell), the deviation `|mean - smooth|`, and `np.nanargmax`. */
module Curves {
  import opened RealFacts

  function Sum(xs: seq<real>): real {
    if |xs| == 0 then 0.0 else Sum(xs[..|xs| - 1]) + xs[|xs| - 1]
  }

  /** The arithmetic mean: the value that, taken once per entry, gives the
      same sum, and so lies between the smallest and the largest entry. */
  function Mean(xs: seq<real>): (m: real)
    requires |xs| > 0
    ensures m * |xs| as real == Sum(xs)
    ensures Min(xs) <= m <= Max(xs)
  {
    AverageWithin(xs, Min(xs), Max(xs));
    Div(Sum(xs), |xs| as real)
  }

  /** Entries in [lo, hi] average to something in [lo, hi]. */
  lemma AverageWithin(xs: seq<real>, lo: real, hi: real)
    requires |xs| > 0
    requires forall j :: 0 <= j < |xs| ==> lo <= xs[j] <= hi
    ensures lo <= Div(Sum(xs), |xs| as real) <= hi
  {
    SumWithin(xs, lo, hi);
    DivWithin(Sum(xs), |xs| as real, lo, hi);
  }

  /** The smallest entry. */
  function Min(xs: seq<real>): (m: real)
    requires |xs| > 0
    ensures m in xs
    ensures forall j :: 0 <= j < |xs| ==> m <= xs[j]
  {
    if |xs| == 1 then xs[0]
    else
      var m := Min(xs[..|xs| - 1]);
      assert forall j :: 0 <= j < |xs| - 1 ==> xs[..|xs| - 1][j] == xs[j];
      if xs[|xs| - 1] < m then xs[|xs| - 1] else m
  }

  /** The largest entry. */
  function Max(xs: seq<real>): (m: real)
    requires |xs| > 0
    ensures m in xs
    ensures forall j :: 0 <= j < |xs| ==> xs[j] <= m
  {
    if |xs| == 1 then xs[0]
    else
      var m := Max(xs[..|xs| - 1]);
      assert forall j :: 0 <= j < |xs| - 1 ==> xs[..|xs| - 1][j] == xs[j];
      if xs[|xs| - 1] > m then xs[|xs| - 1] else m
  }

  /** Entries in [lo, hi] sum to something in [n * lo, n * hi]. */
  lemma {:induction false} SumWithin(xs: seq<real>, lo: real, hi: real)
    requires forall j :: 0 <= j < |xs| ==> lo <= xs[j] <= hi
    ensures |xs| as real * lo <= Sum(xs) <= |xs| as real * hi
  {
    if |xs| > 0 {
      var n := |xs| - 1;
      assert forall j :: 0 <= j < n ==> xs[..n][j] == xs[j];
      SumWithin(xs[..n], lo, hi);
      assert |xs| as real * lo == n as real * lo + lo;
      assert |xs| as real * hi == n as real * hi + hi;
    }
  }

  /** The mean of entries in [lo, hi] lies in [lo, hi]. */
  lemma MeanWithin(xs: seq<real>, lo: real, hi: real)
    requires |xs| > 0
    requires forall j :: 0 <= j < |xs| ==> lo <= xs[j] <= hi
    ensures lo <= Mean(xs) <= hi
  {
    AverageWithin(xs, lo, hi);
  }

  /** The population variance, the square of what `np.nanstd` reports. */
  function Variance(xs: seq<real>): (v: real)
    requires |xs| > 0
    ensures v >= 0.0
  {
    var mu := Mean(xs);
    var sq := seq(|xs|, j requires 0 <= j < |xs| => (xs[j] - mu) * (xs[j] - mu));
    assert forall j :: 0 <= j < |sq| ==> 0.0 <= sq[j] by {
      forall j | 0 <= j < |sq|
        ensures 0.0 <= sq[j]
      {
        Square(xs[j] - mu);
      }
    }
    MeanWithin(sq, 0.0, Max(sq));
    Mean(sq)
  }

  lemma Square(x: real)
    ensures 0.0 <= x * x
  {
    if x < 0.0 { ScaleStrict(x, 0.0, -x); }
  }

  /** Row `i` of a column-major matrix. */
  function Row(m: seq<seq<real>>, i: nat): (row: seq<real>)
    requires forall j :: 0 <= j < |m| ==> i < |m[j]|
    ensures |row| == |m|
  {
    seq(|m|, j requires 0 <= j < |m| => m[j][i])
  }

  /** Every column of `m` has `rows` cells. */
  ghost predicate Rows(m: seq<seq<real>>, rows: nat) {
    forall j :: 0 <= j < |m| ==> |m[j]| == rows
  }

  /** `np.nanmean(mat, axis=1)` on a filled matrix with at least one column:
      one mean per time, each between the smallest and largest entry of its
      row. */
  function MeanCurve(m: seq<seq<real>>, rows: nat): (mean: seq<real>)
    requires |m| > 0 && Rows(m, rows)
    ensures |mean| == rows
    ensures forall i :: 0 <= i < rows ==> mean[i] == Mean(Row(m, i))
    ensures forall i :: 0 <= i < rows ==> Min(Row(m, i)) <= mean[i] <= Max(Row(m, i))
  {
    seq(rows, i requires 0 <= i < rows => Mean(Row(m, i)))
  }

  /** The variance of each row, `np.nanstd(mat, axis=1)` before its square
      root. */
  function VarianceCurve(m: seq<seq<real>>, rows: nat): (v: seq<real>)
    requires |m| > 0 && Rows(m, rows)
    ensures |v| == rows
    ensures forall i :: 0 <= i < rows ==> v[i] == Variance(Row(m, i)) && 0.0 <= v[i]
  {
    seq(rows, i requires 0 <= i < rows => Variance(Row(m, i)))
  }

  function Abs(x: real): real {
    if x < 0.0 then -x else x
  }

  /** `np.abs(mean_curve - smooth)`: at each time one of the two signed
      differences, never negative, so exactly the distance between the curves;
      zero exactly where they agree. */
  function Deviation(mean: seq<real>, smooth: seq<real>): (dev: seq<real>)
    requires |mean| == |smooth|
    ensures |dev| == |mean|
    ensures forall i :: 0 <= i < |dev| ==> dev[i] == mean[i] - smooth[i] || dev[i] == smooth[i] - mean[i]
    ensures forall i :: 0 <= i < |dev| ==> 0.0 <= dev[i]
    ensures forall i :: 0 <= i < |dev| ==> (dev[i] == 0.0 <==> mean[i] == smooth[i])
    ensures forall i :: 0 <= i < |dev| ==> mean[i] - dev[i] <= smooth[i] <= mean[i] + dev[i]
  {
    seq(|mean|, i requires 0 <= i < |mean| => Abs(mean[i] - smooth[i]))
  }

  /** `np.nanargmax`: the first index holding the largest entry. */
  function ArgMax(xs: seq<real>): (k: nat)
    requires |xs| > 0
    ensures k < |xs|
    ensures forall j :: 0 <= j < |xs| ==> xs[j] <= xs[k]
    ensures forall j :: 0 <= j < k ==> xs[j] < xs[k]
  {
    if |xs| == 1 then 0
    else
      var n := |xs| - 1;
      var k := ArgMax(xs[..n]);
      assert forall j :: 0 <= j < n ==> xs[..n][j] == xs[j];
      if xs[n] > xs[k] then n else k
  }
}

=== FILE: gapfill.dfy ===
/** The per-column gap fill of analyze.py,
    `pd.Series(col).ffill().bfill().fillna(0)`: an unset cell takes the value
    of the nearest set cell above it, failing that of the nearest set cell
    below it, failing that 0. */
module GapFill {
  import opened Wrappers

  /** Cell `k` is set and every cell after it up to `i` is unset: `k` is the
      nearest set cell at or above `i`. */
  ghost predicate NearestAbove(c: seq<Option<real>>, k: int, i: int) {
    0 <= k <= i < |c| && c[k].Some? && forall m :: k < m <= i ==> c[m].None?
  }

  /** Cell `k` is set and every cell from `i` up to it is unset: `k` is the
      nearest set cell at or below `i`. */
  ghost predicate NearestBelow(c: seq<Option<real>>, k: int, i: int) {
    0 <= i <= k < |c| && c[k].Some? && forall m :: i <= m < k ==> c[m].None?
  }

  /** `Series.ffill()`. */
  function FFill(c: seq<Option<real>>): (r: seq<Option<real>>)
    ensures |r| == |c|
  {
    if |c| == 0 then []
    else
      var prev := FFill(c[..|c| - 1]);
      var last := c[|c| - 1];
      prev + [if last.Some? || |prev| == 0 then last else prev[|prev| - 1]]
  }

  /** `Series.bfill()`. */
  function BFill(c: seq<Option<real>>): (r: seq<Option<real>>)
    ensures |r| == |c|
  {
    if |c| == 0 then []
    else
      var rest := BFill(c[1..]);
      [if c[0].Some? || |rest| == 0 then c[0] else rest[0]] + rest
  }

  /** `Series.fillna(0)`: every set cell keeps its value and every gap
      becomes zero. */
  function Fill0(c: seq<Option<real>>): (r: seq<real>)
    ensures |r| == |c|
    ensures forall i :: 0 <= i < |c| && c[i].Some? ==> r[i] == c[i].value
    ensures forall i :: 0 <= i < |c| && c[i].None? ==> r[i] == 0.0
  {
    seq(|c|, i requires 0 <= i < |c| => c[i].GetOr(0.0))
  }

  /** The gap fill of one run column. */
  function FillColumn(c: seq<Option<real>>): (r: seq<real>)
    ensures |r| == |c|
  {
    Fill0(BFill(FFill(c)))
  }

  /** Forward fill copies the nearest set cell at or above, and leaves a
      cell unset only when nothing above it or at it is set. */
  lemma {:induction false} FFillCell(c: seq<Option<real>>, i: nat)
    requires i < |c|
    ensures forall k :: NearestAbove(c, k, i) ==> FFill(c)[i] == c[k]
    ensures (forall m :: 0 <= m <= i ==> c[m].None?) ==> FFill(c)[i] == None
    decreases |c|
  {
    var n := |c| - 1;
    var init := c[..n];
    assert forall m :: 0 <= m < n ==> init[m] == c[m];
    var f := FFill(c);
    assert f[..n] == FFill(init);
    if i < n {
      FFillCell(init, i);
      assert f[i] == FFill(init)[i];
      forall k | NearestAbove(c, k, i)
        ensures NearestAbove(init, k, i)
      {
      }
    } else if c[n].None? && n > 0 {
      FFillCell(init, n - 1);
      assert f[n] == FFill(init)[n - 1];
      forall k | NearestAbove(c, k, n)
        ensures NearestAbove(init, k, n - 1)
      {
      }
    }
  }

  /** Backward fill copies the nearest set cell at or below, and leaves a
      cell unset only when nothing below it or at it is set. */
  lemma {:induction false} BFillCell(c: seq<Option<real>>, i: nat)
    requires i < |c|
    ensures forall k :: NearestBelow(c, k, i) ==> BFill(c)[i] == c[k]
    ensures (forall m :: i <= m < |c| ==> c[m].None?) ==> BFill(c)[i] == None
    decreases |c|
  {
    var tail := c[1..];
    assert forall m :: 0 <= m < |tail| ==> tail[m] == c[m + 1];
    var b := BFill(c);
    assert b[1..] == BFill(tail);
    if i > 0 {
      BFillCell(tail, i - 1);
      assert b[i] == BFill(tail)[i - 1];
      forall k | NearestBelow(c, k, i)
        ensures NearestBelow(tail, k - 1, i - 1)
      {
      }
    } else if c[0].None? && |c| > 1 {
      BFillCell(tail, 0);
      assert b[0] == BFill(tail)[0];
      forall k | NearestBelow(c, k, 0)
        ensures NearestBelow(tail, k - 1, 0)
      {
      }
    }
  }

  /** The gap fill keeps every set cell, carries the nearest set cell above
      down into an unset cell, fills the cells above the first set cell with
      its value, and zeroes a column with no set cell. */
  lemma FillColumnCell(c: seq<Option<real>>, i: nat)
    requires i < |c|
    ensures c[i].Some? ==> FillColumn(c)[i] == c[i].value
    ensures forall k :: NearestAbove(c, k, i) ==> FillColumn(c)[i] == c[k].value
    ensures (forall m :: 0 <= m <= i ==> c[m].None?) ==>
      forall k :: NearestBelow(c, k, i) ==> FillColumn(c)[i] == c[k].value
    ensures (forall m :: 0 <= m < |c| ==> c[m].None?) ==> FillColumn(c)[i] == 0.0
  {
    var f := FFill(c);
    var b := BFill(f);
    FFillCell(c, i);
    if exists k :: NearestAbove(c, k, i) {
      var k :| NearestAbove(c, k, i);
      assert NearestBelow(f, i, i);
      BFillCell(f, i);
      forall k' | NearestAbove(c, k', i)
        ensures k' == k
      {
      }
    } else {
      assert forall m :: 0 <= m <= i ==> c[m].None? by {
        forall m | 0 <= m <= i
          ensures c[m].None?
        {
          if c[m].Some? {
            LatestSet(c, m, i);
          }
        }
      }
      forall k | NearestBelow(c, k, i)
        ensures b[i] == c[k]
      {
        forall m | i <= m < k
          ensures f[m] == None
        {
          FFillCell(c, m);
        }
        FFillCell(c, k);
        assert NearestAbove(c, k, k);
        assert NearestBelow(f, k, i);
        BFillCell(f, i);
      }
      if forall m :: 0 <= m < |c| ==> c[m].None? {
        forall m | i <= m < |f|
          ensures f[m] == None
        {
          FFillCell(c, m);
        }
        BFillCell(f, i);
      }
    }
  }

  /** A set cell at or above `i` means some set cell is nearest above `i`. */
  lemma {:induction false} LatestSet(c: seq<Option<real>>, m: nat, i: nat)
    requires m <= i < |c| && c[m].Some?
    ensures exists k :: NearestAbove(c, k, i)
    decreases i - m
  {
    if !NearestAbove(c, m, i) {
      var m' :| m < m' <= i && c[m'].Some?;
      LatestSet(c, m', i);
    }
  }

  /** A set cell at or below `i` means some set cell is nearest below `i`. */
  lemma {:induction false} EarliestSet(c: seq<Option<real>>, m: nat, i: nat)
    requires i <= m < |c| && c[m].Some?
    ensures exists k :: NearestBelow(c, k, i)
    decreases m - i
  {
    if !NearestBelow(c, m, i) {
      var m' :| i <= m' < m && c[m'].Some?;
      EarliestSet(c, m', i);
    }
  }

  /** Every filled value is 0 or the value of some set cell of the column. */
  lemma FillColumnValue(c: seq<Option<real>>, i: nat)
    requires i < |c|
    ensures FillColumn(c)[i] == 0.0 || exists k :: 0 <= k < |c| && c[k] == Some(FillColumn(c)[i])
  {
    FillColumnCell(c, i);
    if exists m :: 0 <= m <= i && c[m].Some? {
      var m :| 0 <= m <= i && c[m].Some?;
      LatestSet(c, m, i);
    } else if exists m :: i <= m < |c| && c[m].Some? {
      var m :| i <= m < |c| && c[m].Some?;
      EarliestSet(c, m, i);
    }
  }

  /** In a column with at least one set cell every filled value is copied
      from a set cell: the zero fill only touches all-unset columns. */
  lemma FillFromSet(c: seq<Option<real>>, i: nat, i0: nat)
    requires i < |c| && i0 < |c| && c[i0].Some?
    ensures exists s :: 0 <= s < |c| && c[s] == Some(FillColumn(c)[i])
  {
    FillColumnCell(c, i);
    if exists m :: 0 <= m <= i && c[m].Some? {
      var m :| 0 <= m <= i && c[m].Some?;
      LatestSet(c, m, i);
    } else {
      EarliestSet(c, i0, i);
    }
  }
}

=== FILE: gossip.dfy ===
/** The synchronous gossip round engine `simulate_one` (swim_sim.py): node 0
    starts aware, every round first records a start-of-round sample, stops once
    everyone is aware, and otherwise lets each node aware at round start
    message its targets, applying every delivered message together at round
    end. All randomness comes from an explicit oracle. */
module Gossip {
  import opened Records
  import Targets
  import opened RealFacts

  /** The arguments of `simulate_one` besides the run id and the step bound.
      `fanout` is an int because nothing stops a caller passing a negative
      one; the sampling loop then picks nobody. */
  datatype Params = Params(nodes: nat, fanout: int, loss: real, interval: real)

  /** Every random outcome of one trial. `draws(r, i)` is the stream of
      `random.choice` results that sender `i` consumes in round `r`, and
      `coin(r, i, t)` is the `random.random()` value that decides whether
      its message to `t` in round `r` arrives. */
  datatype Oracle = Oracle(draws: (nat, nat) -> seq<nat>, coin: (nat, nat, nat) -> real)

  /** `random.random()` returns a value in [0, 1). */
  ghost predicate UnitCoins(o: Oracle) {
    forall r, i, t :: 0.0 <= o.coin(r, i, t) < 1.0
  }

  /** Every sampling loop of the trial terminates: each draw stream names
      enough distinct nodes. */
  ghost predicate SufficientDraws(p: Params, o: Oracle) {
    forall r: nat, i: nat :: i < p.nodes ==> Targets.Sufficient(p.nodes, p.fanout, i, o.draws(r, i))
  }

  /** The number of aware nodes. */
  function Count(a: seq<bool>): (c: nat)
    ensures c <= |a|
  {
    if a == [] then 0 else Count(a[..|a| - 1]) + (if a[|a| - 1] then 1 else 0)
  }

  /** `aware_fraction`: aware nodes over all nodes, a proportion in [0, 1]. */
  function Fraction(a: seq<bool>): (f: real)
    requires |a| > 0
    ensures 0.0 <= f <= 1.0
  {
    RatioAtMostOne(Count(a), |a|);
    Count(a) as real / |a| as real
  }

  /** `aware = [False] * nodes; aware[0] = True`: node 0 alone is aware. */
  function Initial(n: nat): (a: seq<bool>)
    requires n >= 1
    ensures |a| == n && a[0]
    ensures forall j :: 0 < j < n ==> !a[j]
  {
    seq(n, j => j == 0)
  }

  /** The targets of sender `i` in round `r`. */
  function TargetSet(p: Params, o: Oracle, r: nat, i: nat): set<nat>
    requires i < p.nodes
  {
    Targets.Choose(p.nodes, p.fanout, i, o.draws(r, i))
  }

  /** When every sampling loop terminates, each sender targets exactly
      `min(fanout, nodes - 1)` nodes, and none for a negative fanout. */
  lemma TargetCount(p: Params, o: Oracle, r: nat, i: nat)
    requires SufficientDraws(p, o) && i < p.nodes
    ensures |TargetSet(p, o, r, i)| == if p.fanout < 0 then 0 else Targets.Want(p.nodes, p.fanout)
  {
    Targets.ChooseCard(p.nodes, p.fanout, i, o.draws(r, i));
  }

  /** The targets of sender `i` in round `r` whose message arrives, that is
      whose coin satisfies `random.random() < 1.0 - loss`. */
  function Delivered(p: Params, o: Oracle, r: nat, i: nat): (d: set<nat>)
    requires i < p.nodes
    ensures d <= TargetSet(p, o, r, i)
    ensures i !in d && forall t :: t in d ==> t < p.nodes
  {
    set t | t in TargetSet(p, o, r, i) && o.coin(r, i, t) < 1.0 - p.loss
  }

  /** Without loss every message arrives. */
  lemma LosslessDelivers(p: Params, o: Oracle, r: nat, i: nat)
    requires i < p.nodes && UnitCoins(o) && p.loss <= 0.0
    ensures Delivered(p, o, r, i) == TargetSet(p, o, r, i)
  {
  }

  /** `new_awareness` once the sender loop has visited senders 0 .. i-1: the
      nodes reached by some sender among them that was aware at round start,
      every one of them a node of the cluster. */
  function Incoming(p: Params, o: Oracle, r: nat, a: seq<bool>, i: nat): (inc: set<nat>)
    requires |a| == p.nodes && i <= |a|
    ensures forall t :: t in inc ==> t < p.nodes
  {
    if i == 0 then {}
    else Incoming(p, o, r, a, i - 1) + (if a[i - 1] then Delivered(p, o, r, i - 1) else {})
  }

  /** One synchronous round `r` from the round-start state `a`: the sends are
      decided by the nodes aware in `a` alone, and every delivered message
      takes effect at once at round end. */
  function Round(p: Params, o: Oracle, r: nat, a: seq<bool>): (b: seq<bool>)
    requires |a| == p.nodes
    ensures |b| == |a|
    ensures forall j :: 0 <= j < |a| && a[j] ==> b[j]
    ensures forall j :: 0 <= j < |a| && b[j] && !a[j] ==>
      exists i :: 0 <= i < |a| && i != j && a[i] && j in TargetSet(p, o, r, i) && j in Delivered(p, o, r, i)
    ensures forall i, j :: 0 <= i < |a| && 0 <= j < |a| && a[i] && j in Delivered(p, o, r, i) ==> b[j]
  {
    var inc := Incoming(p, o, r, a, |a|);
    var b := seq(|a|, j requires 0 <= j < |a| => a[j] || j in inc);
    assert forall j :: 0 <= j < |a| && b[j] && !a[j] ==>
      exists i :: 0 <= i < |a| && i != j && a[i] && j in TargetSet(p, o, r, i) && j in Delivered(p, o, r, i)
    by {
      forall j | 0 <= j < |a| && b[j] && !a[j]
        ensures exists i :: 0 <= i < |a| && i != j && a[i] && j in TargetSet(p, o, r, i) && j in Delivered(p, o, r, i)
      {
        IncomingSpec(p, o, r, a, |a|, j);
        var i :| i < |a| && SendsTo(p, o, r, a, i, j);
        assert j in TargetSet(p, o, r, i);
      }
    }
    assert forall i, j :: 0 <= i < |a| && 0 <= j < |a| && a[i] && j in Delivered(p, o, r, i) ==> b[j] by {
      forall i, j | 0 <= i < |a| && 0 <= j < |a| && a[i] && j in Delivered(p, o, r, i)
        ensures b[j]
      {
        IncomingSpec(p, o, r, a, |a|, j);
        assert SendsTo(p, o, r, a, i, j);
      }
    }
    b
  }

  /** Sender `s`, aware at the start of round `r`, delivers to `t`. */
  ghost predicate SendsTo(p: Params, o: Oracle, r: nat, a: seq<bool>, s: int, t: nat) {
    0 <= s < |a| == p.nodes && a[s] && t in Delivered(p, o, r, s)
  }

  /** `new_awareness` after senders 0 .. i-1 holds exactly the nodes some
      of them, aware at round start, delivered to. */
  lemma {:induction false} IncomingSpec(p: Params, o: Oracle, r: nat, a: seq<bool>, i: nat, t: nat)
    requires |a| == p.nodes && i <= |a|
    ensures t in Incoming(p, o, r, a, i) <==> exists s :: s < i && SendsTo(p, o, r, a, s, t)
  {
    if i > 0 {
      IncomingSpec(p, o, r, a, i - 1, t);
      if SendsTo(p, o, r, a, i - 1, t) {
        assert t in Incoming(p, o, r, a, i);
      } else {
        assert t in Incoming(p, o, r, a, i) <==> t in Incoming(p, o, r, a, i - 1);
        if s :| s < i && SendsTo(p, o, r, a, s, t) {
          assert s < i - 1;
        }
      }
    }
  }

  /** The loop `for step in range(max_steps)` entered at `step` with state
      `a`: each iteration records the start-of-round sample and stops right
      after it once the fraction has reached 1.0. */
  function Run(p: Params, o: Oracle, runId: int, maxSteps: int, step: nat, a: seq<bool>): (s: seq<Sample>)
    requires |a| == p.nodes > 0
    ensures |s| <= if maxSteps - step < 0 then 0 else maxSteps - step
    decreases maxSteps - step
  {
    if step >= maxSteps then []
    else
      var f := Fraction(a);
      var sample := Sample(TimeAt(step, p.interval), runId, f);
      if f >= 1.0 then [sample]
      else [sample] + Run(p, o, runId, maxSteps, step + 1, Round(p, o, step, a))
  }

  /** The time column of round `step`, `step * interval`: the first round
      is at time zero, and no round is stamped before it when the interval is
      not negative. */
  function TimeAt(step: nat, interval: real): (t: real)
    ensures step == 0 ==> t == 0.0
    ensures 0.0 <= interval ==> 0.0 <= t
  {
    if 0.0 < interval then ScaleMono(0.0, step as real, interval); step as real * interval
    else step as real * interval
  }

  /** Consecutive rounds are stamped one interval apart. */
  lemma TimeAtNext(step: nat, interval: real)
    ensures TimeAt(step + 1, interval) == TimeAt(step, interval) + interval
  {
  }

  /** `simulate_one(run_id, nodes, fanout, loss, interval, max_steps)`. */
  function Trial(p: Params, o: Oracle, runId: int, maxSteps: int): (s: seq<Sample>)
    requires p.nodes >= 1
    ensures |s| <= if maxSteps < 0 then 0 else maxSteps
    ensures forall k :: 0 <= k < |s| ==> s[k].time == TimeAt(k, p.interval) && s[k].run == runId
    ensures maxSteps >= 1 ==> |s| >= 1 && s[0].time == 0.0 && s[0].fraction == 1.0 / p.nodes as real
    ensures forall k :: 0 <= k < |s| - 1 ==> s[k].fraction < 1.0
    ensures |s| < maxSteps ==> |s| >= 1 && s[|s| - 1].fraction == 1.0
  {
    var a := Initial(p.nodes);
    CountInitial(p.nodes);
    var s := Run(p, o, runId, maxSteps, 0, a);
    RunTimes(p, o, runId, maxSteps, 0, a);
    RunStops(p, o, runId, maxSteps, 0, a);
    s
  }

  /** Sample `k` of `s` is trial `runId`'s sample of round `step + k`. */
  ghost predicate Timed(s: seq<Sample>, runId: int, step: nat, interval: real) {
    forall k :: 0 <= k < |s| ==> s[k].time == TimeAt(step + k, interval) && s[k].run == runId
  }

  /** The samples of `Run` are consecutive rounds from `step` of trial `runId`. */
  lemma {:induction false} RunTimes(p: Params, o: Oracle, runId: int, maxSteps: int, step: nat, a: seq<bool>)
    requires |a| == p.nodes > 0
    ensures Timed(Run(p, o, runId, maxSteps, step, a), runId, step, p.interval)
    decreases maxSteps - step
  {
    var s := Run(p, o, runId, maxSteps, step, a);
    if step < maxSteps && Fraction(a) < 1.0 {
      var b := Round(p, o, step, a);
      RunTimes(p, o, runId, maxSteps, step + 1, b);
      var rest := Run(p, o, runId, maxSteps, step + 1, b);
      assert s[1..] == rest;
      forall k | 1 <= k < |s|
        ensures s[k].time == TimeAt(step + k, p.interval) && s[k].run == runId
      {
        var j := k - 1;
        assert s[k] == rest[j];
        assert step + 1 + j == step + k;
      }
    }
  }

  /** `Run` first describes `a`, stops right after the first sample at full
      awareness, and stops before the step bound only there. */
  lemma {:induction false} RunStops(p: Params, o: Oracle, runId: int, maxSteps: int, step: nat, a: seq<bool>)
    requires |a| == p.nodes > 0
    ensures var s := Run(p, o, runId, maxSteps, step, a);
      && (step < maxSteps ==> |s| > 0 && s[0].fraction == Fraction(a))
      && (forall k :: 0 <= k < |s| - 1 ==> s[k].fraction < 1.0)
      && (|s| < maxSteps - step ==> |s| > 0 && s[|s| - 1].fraction == 1.0)
    decreases maxSteps - step
  {
    FractionAtMostOne(a);
    if step < maxSteps && Fraction(a) < 1.0 {
      var b := Round(p, o, step, a);
      RunStops(p, o, runId, maxSteps, step + 1, b);
      var rest := Run(p, o, runId, maxSteps, step + 1, b);
      var s := Run(p, o, runId, maxSteps, step, a);
      assert s[1..] == rest;
    }
  }

  lemma FractionAtMostOne(a: seq<bool>)
    requires |a| > 0
    ensures Fraction(a) <= 1.0
    ensures Fraction(a) == 1.0 <==> Count(a) == |a|
  {
    RatioAtMostOne(Count(a), |a|);
  }

  /** Only node 0 is aware at the start. */
  lemma {:induction false} CountInitial(n: nat)
    requires n >= 1
    ensures Count(Initial(n)) == 1
  {
    if n > 1 {
      assert Initial(n)[..n - 1] == Initial(n - 1);
      CountInitial(n - 1);
    }
  }

  /** Python's `int(x)` on a float: truncation toward zero. */
  function Trunc(x: real): (n: int)
    ensures 0.0 <= x ==> 0 <= n && n as real <= x < n as real + 1.0
    ensures x < 0.0 ==> n <= 0 && n as real - 1.0 < x <= n as real
  {
    if x >= 0.0 then x.Floor else -((-x).Floor)
  }

  /** `max_steps = int(max_time / interval)`: the number of whole intervals
      that fit in the simulated time. */
  function MaxSteps(maxTime: real, interval: real): (m: int)
    requires interval != 0.0
    ensures 0.0 < interval && 0.0 <= maxTime ==>
      0 <= m && m as real * interval <= maxTime < (m + 1) as real * interval
    ensures (maxTime < 0.0 && 0.0 < interval) || (0.0 < maxTime && interval < 0.0) ==> m <= 0
  {
    var m := Trunc(maxTime / interval);
    MaxStepsBounds(maxTime, interval, m);
    QuotientSign(maxTime, interval);
    m
  }

  /** A quotient of operands of opposite signs is negative. */
  lemma QuotientSign(x: real, y: real)
    requires y != 0.0
    ensures (x < 0.0 && 0.0 < y) || (0.0 < x && y < 0.0) ==> x / y < 0.0
  {
    var q := x / y;
    assert q * y == x;
    if 0.0 < y && 0.0 <= q {
      ScaleMono(0.0, q, y);
    }
    if y < 0.0 && 0.0 <= q {
      ScaleMono(0.0, q, -y);
      assert q * -y == -x;
    }
  }

  lemma MaxStepsBounds(maxTime: real, interval: real, m: int)
    requires interval != 0.0
    requires m == Trunc(maxTime / interval)
    ensures 0.0 < interval && 0.0 <= maxTime ==> m as real * interval <= maxTime
    ensures 0.0 < interval && 0.0 <= maxTime ==> maxTime < (m + 1) as real * interval
  {
    var q := maxTime / interval;
    assert q * interval == maxTime;
    if 0.0 < interval && 0.0 <= maxTime {
      if q < 0.0 { ScaleStrict(q, 0.0, interval); }
      var lo, hi := m as real, (m + 1) as real;
      assert lo <= q < hi;
      ScaleMono(lo, q, interval);
      ScaleStrict(q, hi, interval);
      assert q * interval < hi * interval;
      assert maxTime < hi * interval;
      assert maxTime < (m + 1) as real * interval;
    }
  }
}

=== FILE: reals.dfy ===
/** Facts about scaling an inequality by a positive real and about ratios of
    counts, shared by the arithmetic of the round engine and of the curve
    statistics. */
module RealFacts {

  lemma ScaleMono(x: real, y: real, c: real)
    requires x <= y && 0.0 < c
    ensures x * c <= y * c
  {
  }

  lemma ScaleStrict(x: real, y: real, c: real)
    requires x < y && 0.0 < c
    ensures x * c < y * c
  {
  }

  /** A count out of `n` is at most 1, and exactly 1 when it is all `n`. */
  lemma RatioAtMostOne(c: nat, n: nat)
    requires 0 < n && c <= n
    ensures c as real / n as real <= 1.0
    ensures c as real / n as real == 1.0 <==> c == n
  {
    var f := c as real / n as real;
    assert f * n as real == c as real;
    if f > 1.0 { ScaleStrict(1.0, f, n as real); }
  }

  /** Out of the same positive `n`, a larger count is a larger ratio. */
  lemma RatioMono(c: nat, d: nat, n: nat)
    requires 0 < n && c <= d
    ensures c as real / n as real <= d as real / n as real
  {
    var x, y := c as real / n as real, d as real / n as real;
    assert x * n as real == c as real && y * n as real == d as real;
    if y < x { ScaleStrict(y, x, n as real); }
  }

  /** Division by a positive `n`: the `q` with `q * n == s`. */
  function Div(s: real, n: real): (q: real)
    requires 0.0 < n
    ensures q * n == s
  {
    s / n
  }

  /** A quotient by a positive `n` of something in [n * lo, n * hi] lies in
      [lo, hi]. */
  lemma DivWithin(s: real, n: real, lo: real, hi: real)
    requires 0.0 < n && n * lo <= s <= n * hi
    ensures lo <= Div(s, n) <= hi
  {
    var q := Div(s, n);
    if q < lo { ScaleStrict(q, lo, n); }
    if hi < q { ScaleStrict(hi, q, n); }
  }
}

=== FILE: records.dfy ===
/** The three-column record `(time, run, aware_fraction)` that a trial emits
    and the analysis consumes. */
module Records {

  /** One start-of-round sample of one trial. */
  datatype Sample = Sample(time: real, run: int, fraction: real)
}

=== FILE: scatter.dfy ===
/** The time x run matrix of analyze.py: every cell starts unset (`np.nan`)
    and each record, in record order, writes its fraction into the cell of its
    (time, run). The matrix is stored column-major, one column per run, since
    the gap fill works column by column. */
module Scatter {
  import opened Wrappers
  import opened Records
  import Axis

  /** One run's cells down the time axis; `None` is an unset cell. */
  type Column = seq<Option<real>>

  ghost predicate Shaped(m: seq<Column>, rows: nat, cols: nat) {
    |m| == cols && forall j :: 0 <= j < cols ==> |m[j]| == rows
  }

  /** Every record's time and run lie on the axes. */
  ghost predicate OnAxes(recs: seq<Sample>, times: seq<real>, runs: seq<int>) {
    forall k :: 0 <= k < |recs| ==> recs[k].time in times && recs[k].run in runs
  }

  /** Record `rec` belongs to the cell of time `t` and run `r`. */
  ghost predicate Hits(rec: Sample, t: real, r: int) {
    rec.time == t && rec.run == r
  }

  /** Record `k` is the last record of the cell of time `t` and run `r`. */
  ghost predicate LastHit(recs: seq<Sample>, k: int, t: real, r: int) {
    0 <= k < |recs| && Hits(recs[k], t, r) && forall l :: k < l < |recs| ==> !Hits(recs[l], t, r)
  }

  /** `np.full((len(times), len(runs)), np.nan)`. */
  function Unset(rows: nat, cols: nat): (m: seq<Column>)
    ensures Shaped(m, rows, cols)
    ensures forall j, i :: 0 <= j < cols && 0 <= i < rows ==> m[j][i] == None
  {
    seq(cols, _ => seq(rows, _ => None))
  }

  /** The loop over `df.iterrows()` writing `mat[time_to_idx[t], run_to_idx[r]] = val`. */
  function Scatter(times: seq<real>, runs: seq<int>, recs: seq<Sample>): (m: seq<Column>)
    requires OnAxes(recs, times, runs)
    ensures Shaped(m, |times|, |runs|)
    decreases |recs|
  {
    if |recs| == 0 then Unset(|times|, |runs|)
    else
      var n := |recs| - 1;
      assert OnAxes(recs[..n], times, runs) by {
        assert forall k :: 0 <= k < n ==> recs[..n][k] == recs[k];
      }
      var m := Scatter(times, runs, recs[..n]);
      var i := Axis.IndexOf(times, recs[n].time);
      var j := Axis.IndexOf(runs, recs[n].run);
      m[j := m[j][i := Some(recs[n].fraction)]]
  }

  /** A cell is set exactly when some record has its (time, run), and then
      holds the fraction of the last such record. */
  lemma {:induction false} ScatterCell(times: seq<real>, runs: seq<int>, recs: seq<Sample>, i: nat, j: nat)
    requires Axis.Distinct(times) && Axis.Distinct(runs)
    requires OnAxes(recs, times, runs)
    requires i < |times| && j < |runs|
    ensures Scatter(times, runs, recs)[j][i].Some? <==> exists k :: 0 <= k < |recs| && Hits(recs[k], times[i], runs[j])
    ensures forall k :: LastHit(recs, k, times[i], runs[j]) ==> Scatter(times, runs, recs)[j][i] == Some(recs[k].fraction)
    decreases |recs|
  {
    if |recs| > 0 {
      var n := |recs| - 1;
      var prev := recs[..n];
      assert forall k :: 0 <= k < n ==> prev[k] == recs[k];
      assert OnAxes(prev, times, runs);
      ScatterCell(times, runs, prev, i, j);
      var m := Scatter(times, runs, prev);
      var i' := Axis.IndexOf(times, recs[n].time);
      var j' := Axis.IndexOf(runs, recs[n].run);
      var big := Scatter(times, runs, recs);
      assert big == m[j' := m[j'][i' := Some(recs[n].fraction)]];
      Axis.IndexOfUnique(times, i);
      Axis.IndexOfUnique(runs, j);
      if Hits(recs[n], times[i], runs[j]) {
        assert i' == i && j' == j;
        assert big[j][i] == Some(recs[n].fraction);
        forall k | LastHit(recs, k, times[i], runs[j])
          ensures k == n
        {
        }
      } else {
        assert i' != i || j' != j;
        assert big[j][i] == m[j][i];
        forall k | LastHit(recs, k, times[i], runs[j])
          ensures LastHit(prev, k, times[i], runs[j])
        {
        }
        assert (exists k :: 0 <= k < |recs| && Hits(recs[k], times[i], runs[j]))
          ==> exists k :: 0 <= k < n && Hits(prev[k], times[i], runs[j]);
      }
    }
  }

  /** A record that hits a cell is followed by a last one that does. */
  lemma {:induction false} LastHitExists(recs: seq<Sample>, k: nat, t: real, r: int)
    requires k < |recs| && Hits(recs[k], t, r)
    ensures exists l :: LastHit(recs, l, t, r)
    decreases |recs| - k
  {
    if !LastHit(recs, k, t, r) {
      var l :| k < l < |recs| && Hits(recs[l], t, r);
      LastHitExists(recs, l, t, r);
    }
  }

  /** A set cell holds the fraction of a record of its own time and run. */
  lemma ScatterValue(times: seq<real>, runs: seq<int>, recs: seq<Sample>, i: nat, j: nat)
    requires Axis.Distinct(times) && Axis.Distinct(runs)
    requires OnAxes(recs, times, runs)
    requires i < |times| && j < |runs|
    requires Scatter(times, runs, recs)[j][i].Some?
    ensures exists k ::
      && 0 <= k < |recs|
      && Hits(recs[k], times[i], runs[j])
      && Scatter(times, runs, recs)[j][i] == Some(recs[k].fraction)
  {
    ScatterCell(times, runs, recs, i, j);
    var h :| 0 <= h < |recs| && Hits(recs[h], times[i], runs[j]);
    LastHitExists(recs, h, times[i], runs[j]);
  }
}

=== FILE: smoothing.dfy ===
/** The guarded Savitzky-Golay smoothing of the mean curve in analyze.py.
    The filter itself is numerics outside this model: it is a parameter,
    assumed only to accept any window that is odd, no longer than the curve
    and longer than the polynomial degree, and to return a curve of the same
    length. What is modelled is the guard that picks the window and degree. */
module Smoothing {

  /** The arguments `scipy.signal.savgol_filter` accepts in its default
      `interp` mode: an odd window no longer than the curve and a degree
      below the window. */
  predicate FilterArgsOk(n: nat, win: int, poly: int) {
    win % 2 == 1 && 0 <= poly < win <= n
  }

  /** A smoothing filter that accepts every argument triple `FilterArgsOk`
      allows and preserves length. */
  ghost predicate FilterContract(savgol: (seq<real>, int, int) --> seq<real>) {
    forall xs: seq<real>, w: int, p: int {:trigger savgol.requires(xs, w, p)} ::
      FilterArgsOk(|xs|, w, p) ==> savgol.requires(xs, w, p) && |savgol(xs, w, p)| == |xs|
  }

  datatype Window = Window(win: int, poly: int)

  /** The window of a curve of `n >= 5` points: `window` capped at `n`,
      lowered by one if even, raised to 5 if below; degree 3, or `win - 2`
      if 3 would not fit. The result is always acceptable to the filter, the
      degree is always 3, and the window is the largest odd one not above
      `min(window, n)` unless that is below 5. */
  function ClampWindow(window: int, n: nat): (w: Window)
    requires n >= 5
    ensures FilterArgsOk(n, w.win, w.poly)
    ensures w.poly == 3 && 5 <= w.win
    ensures var cap := if window < n then window else n;
      && (cap >= 5 ==> w.win <= cap < w.win + 2)
      && (cap < 5 ==> w.win == 5)
  {
    var win0 := if window < n then window else n;
    var win1 := if win0 % 2 == 0 then win0 - 1 else win0;
    var win := if win1 < 5 then 5 else win1;
    var poly := if 3 >= win then win - 2 else 3;
    Window(win, poly)
  }

  /** `smooth`: the curve itself when it has fewer than 5 points, else the
      filter applied with the clamped window. */
  function Smooth(curve: seq<real>, window: int, savgol: (seq<real>, int, int) --> seq<real>): (s: seq<real>)
    requires FilterContract(savgol)
    ensures |s| == |curve|
    ensures |curve| < 5 ==> s == curve
    ensures |curve| >= 5 ==> s == savgol(curve, ClampWindow(window, |curve|).win, 3)
  {
    if |curve| < 5 then curve
    else
      var w := ClampWindow(window, |curve|);
      assert savgol.requires(curve, w.win, w.poly);
      savgol(curve, w.win, w.poly)
  }

  /** The default `window_savgol = 11` gives an 11-point window on curves of
      at least 11 points, and otherwise the largest odd window that fits. */
  lemma DefaultWindow(n: nat)
    requires n >= 5
    ensures n >= 11 ==> ClampWindow(11, n) == Window(11, 3)
    ensures n < 11 ==> ClampWindow(11, n) == Window(if n % 2 == 0 then n - 1 else n, 3)
  {
  }
}

=== FILE: targets.dfy ===
/** Target selection of one aware node in one round (swim_sim.py, the body of
    the sender loop): the list `possible` of every node but the sender, and
    either all of it or a set filled by repeated `random.choice` draws. */
module Targets {
  import Axis

  /** The elements of a sequence, as a set. */
  function Elems(xs: seq<nat>): set<nat> {
    set x | x in xs
  }

  /** `list(range(n))` after `.remove(i)`: the node ids in increasing order
      with the sender dropped. */
  function Possible(n: nat, i: nat): (ps: seq<nat>)
    requires i < n
    ensures |ps| == n - 1
    ensures Axis.Distinct(ps)
    ensures forall x: nat :: x in ps <==> x < n && x != i
  {
    var ps := seq(n - 1, k requires 0 <= k < n - 1 => if k < i then k else k + 1);
    assert forall k :: 0 <= k < |ps| ==> ps[k] == if k < i then k else k + 1;
    assert forall x :: x in ps ==> x < n && x != i;
    assert forall x: nat :: x < n && x != i ==> x in ps by {
      forall x: nat | x < n && x != i
        ensures x in ps
      {
        if x < i { assert ps[x] == x; } else { assert ps[x - 1] == x; }
      }
    }
    ps
  }

  /** How many targets the sampling loop aims for: `min(fanout, nodes - 1)`. */
  function Want(n: nat, fanout: int): int {
    if fanout < n - 1 then fanout else n - 1
  }

  /** The set of nodes that a stream of raw draws selects from `possible`; the
      draw `d` stands for `random.choice` returning `possible[d % |possible|]`. */
  function Picked(possible: seq<nat>, draws: seq<nat>): set<nat>
    requires |possible| > 0
  {
    set d | d in draws :: possible[d % |possible|]
  }

  /** The loop `while len(targets) < want: targets.add(random.choice(possible))`,
      started from `acc` and fed by the finite stream `draws`; when the stream
      runs dry the loop stops with what it has. */
  function Fill(possible: seq<nat>, want: int, draws: seq<nat>, acc: set<nat>): (t: set<nat>)
    requires want <= |possible|
    ensures acc <= t
    ensures t - acc <= Elems(possible)
    ensures |t| <= if want < |acc| then |acc| else want
    decreases |draws|
  {
    if want <= |acc| || |draws| == 0 then acc
    else
      var x := possible[draws[0] % |possible|];
      assert |acc + {x}| <= |acc| + 1;
      Fill(possible, want, draws[1..], acc + {x})
  }

  /** The targets of sender `i` among `n` nodes: every other node when
      `fanout >= n - 1`, otherwise the set the sampling loop produces. */
  function Choose(n: nat, fanout: int, i: nat, draws: seq<nat>): (t: set<nat>)
    requires i < n
    ensures i !in t
    ensures forall x :: x in t ==> x < n
    ensures fanout >= n - 1 ==> forall x: nat :: x in t <==> x < n && x != i
    ensures fanout < n - 1 ==> |t| <= if fanout < 0 then 0 else fanout
  {
    var possible := Possible(n, i);
    assert forall x :: x in Elems(possible) <==> x in possible;
    if fanout >= n - 1 then Elems(possible)
    else
      var t := Fill(possible, Want(n, fanout), draws, {});
      assert forall x :: x in t ==> x in Elems(possible);
      t
  }

  /** The draw stream is long enough for the sampling loop to finish: it
      names at least `min(fanout, n - 1)` distinct nodes. */
  ghost predicate Sufficient(n: nat, fanout: int, i: nat, draws: seq<nat>)
    requires i < n
  {
    fanout >= n - 1 || fanout <= 0 || |Picked(Possible(n, i), draws)| >= fanout
  }

  lemma {:induction false} DistinctCard(xs: seq<nat>)
    requires Axis.Distinct(xs)
    ensures |Elems(xs)| == |xs|
  {
    if xs != [] {
      var init := xs[..|xs| - 1];
      var last := xs[|xs| - 1];
      assert Axis.Distinct(init);
      DistinctCard(init);
      assert Elems(xs) == Elems(init) + {last};
      assert last !in Elems(init);
    }
  }

  /** A stream naming enough distinct nodes drives the sampling loop to
      exactly `want` targets. */
  lemma {:induction false} FillReachesWant(possible: seq<nat>, want: int, draws: seq<nat>, acc: set<nat>)
    requires 0 < |possible| && want <= |possible|
    requires |acc| <= want
    requires |acc + Picked(possible, draws)| >= want
    ensures |Fill(possible, want, draws, acc)| == want
    decreases |draws|
  {
    if want <= |acc| || |draws| == 0 {
    } else {
      var x := possible[draws[0] % |possible|];
      var rest := draws[1..];
      assert draws == [draws[0]] + rest;
      assert Picked(possible, draws) == {x} + Picked(possible, rest) by {
        forall y | y in Picked(possible, draws)
          ensures y in {x} + Picked(possible, rest)
        {
          var d :| d in draws && y == possible[d % |possible|];
          if d != draws[0] { assert d in rest; }
        }
      }
      assert acc + Picked(possible, draws) == (acc + {x}) + Picked(possible, rest);
      assert |acc + {x}| <= |acc| + 1;
      FillReachesWant(possible, want, rest, acc + {x});
    }
  }

  /** Each sender addresses exactly `min(fanout, n - 1)` distinct nodes (none
      when that is negative) once the draw stream lets the loop finish. */
  lemma ChooseCard(n: nat, fanout: int, i: nat, draws: seq<nat>)
    requires i < n
    requires Sufficient(n, fanout, i, draws)
    ensures |Choose(n, fanout, i, draws)| == if fanout < 0 then 0 else Want(n, fanout)
  {
    var possible := Possible(n, i);
    if fanout >= n - 1 {
      DistinctCard(possible);
    } else if fanout <= 0 {
    } else {
      FillReachesWant(possible, fanout, draws, {});
    }
  }
}

=== FILE: thresholds.dfy ===
/** `time_to_threshold` of analyze.py: the time of the first point of the
    mean curve at or above a threshold, or nothing when no point reaches it;
    and the 10%-to-90% spread built from two of them. */
module Thresholds {
  import opened Wrappers
  import Axis

  /** Point `i` is the first one at or above `thr`. */
  ghost predicate FirstAt(curve: seq<real>, thr: real, i: int) {
    0 <= i < |curve| && curve[i] >= thr && forall j :: 0 <= j < i ==> curve[j] < thr
  }

  /** The scan from the front: `times[i]` for the first `i` with
      `curve[i] >= thr`, else `None`. */
  function TimeToThreshold(curve: seq<real>, times: seq<real>, thr: real): (t: Option<real>)
    requires |curve| == |times|
    ensures t.None? <==> forall i :: 0 <= i < |curve| ==> curve[i] < thr
    ensures t.Some? ==> exists i :: FirstAt(curve, thr, i) && t.value == times[i]
  {
    if |curve| == 0 then None
    else if curve[0] >= thr then
      assert FirstAt(curve, thr, 0);
      Some(times[0])
    else
      var t := TimeToThreshold(curve[1..], times[1..], thr);
      assert forall i :: 1 <= i < |curve| ==> curve[1..][i - 1] == curve[i];
      assert forall i :: FirstAt(curve[1..], thr, i) ==> FirstAt(curve, thr, i + 1) && times[1..][i] == times[i + 1];
      t
  }

  /** The first point reaching a threshold is unique, so the reported time is
      the time of that point. */
  lemma FirstAtTime(curve: seq<real>, times: seq<real>, thr: real, i: int)
    requires |curve| == |times|
    requires FirstAt(curve, thr, i)
    ensures TimeToThreshold(curve, times, thr) == Some(times[i])
  {
    var t := TimeToThreshold(curve, times, thr);
    var k :| FirstAt(curve, thr, k) && t.value == times[k];
    assert k == i;
  }

  /** On an increasing time axis a lower threshold is reached no later than a
      higher one: whenever `hi` is reached, `lo` is too, at a time no later. */
  lemma ThresholdOrder(curve: seq<real>, times: seq<real>, lo: real, hi: real)
    requires |curve| == |times|
    requires Axis.Increasing(Axis.RealLess, times)
    requires lo <= hi
    ensures TimeToThreshold(curve, times, hi).Some? ==>
      && TimeToThreshold(curve, times, lo).Some?
      && TimeToThreshold(curve, times, lo).value <= TimeToThreshold(curve, times, hi).value
  {
    var th := TimeToThreshold(curve, times, hi);
    if th.Some? {
      var ih :| FirstAt(curve, hi, ih) && th.value == times[ih];
      var tl := TimeToThreshold(curve, times, lo);
      assert curve[ih] >= lo;
      var il :| FirstAt(curve, lo, il) && tl.value == times[il];
      assert il <= ih;
      if il < ih {
        assert times[il] < times[ih];
      }
    }
  }

  /** `t_10_90`: the difference of two threshold times when both exist. */
  function Spread(t10: Option<real>, t90: Option<real>): (d: Option<real>)
    ensures d.Some? <==> t10.Some? && t90.Some?
    ensures d.Some? ==> t10.value + d.value == t90.value
  {
    if t10.Some? && t90.Some? then Some(t90.value - t10.value) else None
  }

  /** Whenever the 90% time exists the 10% time does too, and the spread
      between them is never negative. */
  lemma SpreadNonNegative(curve: seq<real>, times: seq<real>)
    requires |curve| == |times|
    requires Axis.Increasing(Axis.RealLess, times)
    ensures var d := Spread(TimeToThreshold(curve, times, 0.10), TimeToThreshold(curve, times, 0.90));
      && (TimeToThreshold(curve, times, 0.90).Some? ==> d.Some?)
      && (d.Some? ==> d.value >= 0.0)
  {
    ThresholdOrder(curve, times, 0.10, 0.90);
  }

  /** A rising curve sampled once a second: 50% is first reached at 2 s,
      90% at 4 s, and the 10%-to-90% spread is 3 s. */
  lemma ThresholdExample()
    ensures TimeToThreshold([0.0, 0.2, 0.5, 0.8, 1.0], [0.0, 1.0, 2.0, 3.0, 4.0], 0.50) == Some(2.0)
    ensures TimeToThreshold([0.0, 0.2, 0.5, 0.8, 1.0], [0.0, 1.0, 2.0, 3.0, 4.0], 0.90) == Some(4.0)
    ensures Spread(
      TimeToThreshold([0.0, 0.2, 0.5, 0.8, 1.0], [0.0, 1.0, 2.0, 3.0, 4.0], 0.10),
      TimeToThreshold([0.0, 0.2, 0.5, 0.8, 1.0], [0.0, 1.0, 2.0, 3.0, 4.0], 0.90)) == Some(3.0)
  {
  }
}

=== FILE: trial_properties.dfy ===
/** Properties of `simulate_one` that hold for every outcome of the random
    oracle: awareness only grows, the series is bounded and monotone, and the
    degenerate configurations (no fanout, total loss, a single node, a full
    broadcast) produce series fixed in advance: flat at `1/nodes`, a single
    sample, or full awareness after one round. */
module TrialProperties {
  import opened Records
  import opened Gossip
  import Targets
  import opened RealFacts

  /** Pointwise more awareness means a larger count. */
  lemma {:induction false} CountMono(a: seq<bool>, b: seq<bool>)
    requires |a| == |b|
    requires forall j :: 0 <= j < |a| && a[j] ==> b[j]
    ensures Count(a) <= Count(b)
  {
    if a != [] {
      var n := |a| - 1;
      CountMono(a[..n], b[..n]);
    }
  }

  /** Everyone is counted exactly when everyone is aware. */
  lemma {:induction false} CountAll(a: seq<bool>)
    ensures Count(a) == |a| <==> forall j :: 0 <= j < |a| ==> a[j]
  {
    if a != [] {
      var n := |a| - 1;
      CountAll(a[..n]);
      assert forall j :: 0 <= j < n ==> a[..n][j] == a[j];
    }
  }

  lemma FractionMono(a: seq<bool>, b: seq<bool>)
    requires 0 < |a| == |b|
    requires Count(a) <= Count(b)
    ensures Fraction(a) <= Fraction(b)
  {
    RatioMono(Count(a), Count(b), |a|);
  }

  /** A round never lowers the aware fraction. */
  lemma RoundGrows(p: Params, o: Oracle, r: nat, a: seq<bool>)
    requires 0 < |a| == p.nodes
    ensures Fraction(a) <= Fraction(Round(p, o, r, a))
  {
    var b := Round(p, o, r, a);
    CountMono(a, b);
    FractionMono(a, b);
  }

  /** Every sample reports a fraction in [lo, 1.0]. */
  ghost predicate Within(s: seq<Sample>, lo: real) {
    forall k :: 0 <= k < |s| ==> lo <= s[k].fraction <= 1.0
  }

  /** Later samples never report less than earlier ones. */
  ghost predicate NonDecreasing(s: seq<Sample>) {
    forall k, l :: 0 <= k <= l < |s| ==> s[k].fraction <= s[l].fraction
  }

  /** Every sample of `Run` lies between the fraction of its start state and
      1.0, and later samples never report less than earlier ones. */
  lemma {:induction false} RunMonotone(p: Params, o: Oracle, runId: int, maxSteps: int, step: nat, a: seq<bool>)
    requires |a| == p.nodes > 0
    ensures Within(Run(p, o, runId, maxSteps, step, a), Fraction(a))
    ensures NonDecreasing(Run(p, o, runId, maxSteps, step, a))
    decreases maxSteps - step
  {
    FractionAtMostOne(a);
    if step < maxSteps && Fraction(a) < 1.0 {
      var b := Round(p, o, step, a);
      RoundGrows(p, o, step, a);
      RunMonotone(p, o, runId, maxSteps, step + 1, b);
      var s := Run(p, o, runId, maxSteps, step, a);
      var rest := Run(p, o, runId, maxSteps, step + 1, b);
      assert s[1..] == rest;
      assert s[0].fraction == Fraction(a);
      forall k | 1 <= k < |s|
        ensures Fraction(b) <= s[k].fraction <= 1.0
      {
        assert s[k] == rest[k - 1];
      }
      forall k, l | 0 <= k <= l < |s|
        ensures s[k].fraction <= s[l].fraction
      {
        if 0 < k {
          assert s[k] == rest[k - 1] && s[l] == rest[l - 1];
        } else if 0 < l {
          assert s[l] == rest[l - 1];
        }
      }
    }
  }

  /** The `aware_fraction` column of one trial is non-decreasing and stays
      within [1/nodes, 1.0]. */
  lemma TrialMonotone(p: Params, o: Oracle, runId: int, maxSteps: int)
    requires p.nodes >= 1
    ensures Within(Trial(p, o, runId, maxSteps), 1.0 / p.nodes as real)
    ensures NonDecreasing(Trial(p, o, runId, maxSteps))
  {
    CountInitial(p.nodes);
    RunMonotone(p, o, runId, maxSteps, 0, Initial(p.nodes));
  }

  /** No message is delivered in any round. */
  ghost predicate Silent(p: Params, o: Oracle) {
    forall r: nat, i: nat :: i < p.nodes ==> Delivered(p, o, r, i) == {}
  }

  lemma SilentRound(p: Params, o: Oracle, r: nat, a: seq<bool>)
    requires |a| == p.nodes
    requires Silent(p, o)
    ensures Round(p, o, r, a) == a
  {
    var b := Round(p, o, r, a);
    forall j | 0 <= j < |a|
      ensures b[j] == a[j]
    {
    }
  }

  /** Without deliveries a run that starts short of full awareness repeats
      its start fraction for every remaining round. */
  lemma {:induction false} SilentRun(p: Params, o: Oracle, runId: int, maxSteps: int, step: nat, a: seq<bool>)
    requires |a| == p.nodes > 0
    requires Silent(p, o) && Fraction(a) < 1.0
    ensures var s := Run(p, o, runId, maxSteps, step, a);
      && |s| == (if maxSteps - step < 0 then 0 else maxSteps - step)
      && forall k :: 0 <= k < |s| ==> s[k].fraction == Fraction(a)
    decreases maxSteps - step
  {
    if step < maxSteps {
      SilentRound(p, o, step, a);
      SilentRun(p, o, runId, maxSteps, step + 1, a);
      var s := Run(p, o, runId, maxSteps, step, a);
      assert s[1..] == Run(p, o, runId, maxSteps, step + 1, a);
      assert forall k :: 1 <= k < |s| ==> s[k] == s[1..][k - 1];
    }
  }

  /** A silent trial among at least two nodes is flat at 1/nodes for all
      `maxSteps` rounds. */
  lemma SilentTrial(p: Params, o: Oracle, runId: int, maxSteps: int)
    requires p.nodes >= 2 && Silent(p, o)
    ensures var s := Trial(p, o, runId, maxSteps);
      && |s| == (if maxSteps < 0 then 0 else maxSteps)
      && forall k :: 0 <= k < |s| ==> s[k] == Sample(TimeAt(k, p.interval), runId, 1.0 / p.nodes as real)
  {
    var a := Initial(p.nodes);
    CountInitial(p.nodes);
    RatioAtMostOne(1, p.nodes);
    SilentRun(p, o, runId, maxSteps, 0, a);
    RunTimes(p, o, runId, maxSteps, 0, a);
  }

  /** With `fanout <= 0` no sender has a target. */
  lemma NoFanoutIsSilent(p: Params, o: Oracle)
    requires p.fanout <= 0
    ensures Silent(p, o)
  {
    forall r: nat, i: nat | i < p.nodes
      ensures Delivered(p, o, r, i) == {}
    {
      assert |TargetSet(p, o, r, i)| == 0;
    }
  }

  /** `fanout = 0`: the information never leaves node 0. */
  lemma NoFanoutTrial(p: Params, o: Oracle, runId: int, maxSteps: int)
    requires p.nodes >= 2 && p.fanout == 0
    ensures var s := Trial(p, o, runId, maxSteps);
      && |s| == (if maxSteps < 0 then 0 else maxSteps)
      && forall k :: 0 <= k < |s| ==> s[k] == Sample(TimeAt(k, p.interval), runId, 1.0 / p.nodes as real)
  {
    NoFanoutIsSilent(p, o);
    SilentTrial(p, o, runId, maxSteps);
  }

  /** `loss = 1.0`: `random.random() < 0.0` never holds, so nothing arrives. */
  lemma TotalLossIsSilent(p: Params, o: Oracle)
    requires p.loss >= 1.0 && UnitCoins(o)
    ensures Silent(p, o)
  {
    forall r: nat, i: nat | i < p.nodes
      ensures Delivered(p, o, r, i) == {}
    {
      forall t | t in Delivered(p, o, r, i)
        ensures false
      {
      }
    }
  }

  /** `loss = 1.0`: the series is flat at 1/nodes for every fanout. */
  lemma TotalLossTrial(p: Params, o: Oracle, runId: int, maxSteps: int)
    requires p.nodes >= 2 && p.loss == 1.0 && UnitCoins(o)
    ensures var s := Trial(p, o, runId, maxSteps);
      && |s| == (if maxSteps < 0 then 0 else maxSteps)
      && forall k :: 0 <= k < |s| ==> s[k] == Sample(TimeAt(k, p.interval), runId, 1.0 / p.nodes as real)
  {
    TotalLossIsSilent(p, o);
    SilentTrial(p, o, runId, maxSteps);
  }

  /** `nodes = 1`: the lone node is aware at round 0 and the trial stops
      there. */
  lemma SingleNodeTrial(p: Params, o: Oracle, runId: int, maxSteps: int)
    requires p.nodes == 1 && maxSteps >= 1
    ensures Trial(p, o, runId, maxSteps) == [Sample(0.0, runId, 1.0)]
  {
    CountInitial(1);
  }

  /** `fanout >= nodes - 1` with `loss = 0`: node 0 reaches everyone in round
      0, so the series is 1/nodes at time 0 and 1.0 one interval later. */
  lemma BroadcastTrial(p: Params, o: Oracle, runId: int, maxSteps: int)
    requires p.nodes >= 2 && p.fanout >= p.nodes - 1 && p.loss == 0.0 && UnitCoins(o)
    requires maxSteps >= 2
    ensures Trial(p, o, runId, maxSteps) == [Sample(0.0, runId, 1.0 / p.nodes as real), Sample(p.interval, runId, 1.0)]
  {
    var a := Initial(p.nodes);
    CountInitial(p.nodes);
    RatioAtMostOne(1, p.nodes);
    var b := Round(p, o, 0, a);
    forall j | 0 <= j < p.nodes
      ensures b[j]
    {
      if j != 0 {
        assert j in TargetSet(p, o, 0, 0);
        assert o.coin(0, 0, j) < 1.0;
        assert j in Delivered(p, o, 0, 0);
      }
    }
    CountAll(b);
    RatioAtMostOne(p.nodes, p.nodes);
    var s := Trial(p, o, runId, maxSteps);
    assert s == [Sample(0.0, runId, Fraction(a))] + Run(p, o, runId, maxSteps, 1, b);
  }
}

=== FILE: wrappers.dfy ===
/** The optional value used for matrix cells that may be unset and for
    threshold times that may be unreached. */
module Wrappers {

  datatype Option<+T> = None | Some(value: T) {

    /** The wrapped value, or `default` when there is none. */
    function GetOr(default: T): T {
      match this
      case Some(v) => v
      case None => default
    }
  }
}
